=== FILE: README.md ===
# SQL chatbot: reply cleaning and session transitions

This project is a Dafny model of the logic at the centre of a small
Streamlit app. The app turns questions about the Chinook music-store database
into SQL by asking a Gemini language model. Two parts of the app are pure
logic, and they are what this project models:

- **`clean_sql_query`** (`app.py`). The model's reply is sanitised in three
  steps:
  1. A regular-expression pass deletes markdown fence markers. These are three
     backticks, either followed by `sql` or on their own.
  2. The text is stripped of surrounding whitespace.
  3. A second pass removes one leading `SQL:` label, in any letter case,
     together with the whitespace after it.

  All three steps are pure functions on `string`:
  - `Clean.StripFences` is the left-to-right, first-alternative-wins scan that
    `re.sub` performs. `Clean.ScanFences` is a loop version of the same scan.
  - `Clean.Strip` models `str.strip()`.
  - `Clean.StripLabel` models the anchored `^SQL:\s*` substitution.
  - `Clean.CleanSql` composes the three.

  Whitespace is one predicate, `Text.IsSpace`. It holds CPython's set of
  whitespace code points, which both `str.strip()` and the `\s` class of a
  `str` pattern use. Under `re.IGNORECASE` the pattern letter `S` also
  matches U+017F, LATIN SMALL LETTER LONG S, and the model includes that
  case.
- **The chatbot session** (`app.py`). `st.session_state` holds the current
  SQL and an append-only history of (question or example name, SQL) pairs.
  - `Session.UseExample` models "Use Selected Example".
  - `Session.Generate` models "Generate SQL". The model's raw reply is a
    parameter: `None` when `get_gemini_response` raises, which ends the
    script run before anything is stored. With an empty question, nothing
    changes and a warning is shown.
  - `Session.Run` folds a sequence of button presses over a session.

What is proved:
- No run of three backticks survives cleaning, including runs of four or
  five backticks.
- The cleaned text has no leading or trailing whitespace.
- The cleaned text is a subsequence of the reply.
- Fenced replies and labelled replies clean to exactly the statement inside
  them. This holds for any statement that has no surrounding whitespace and
  no run of three backticks, the empty statement included. In the fenced form the statement
  must also not start with a `SQL:` label, which the label pass would remove.
  Backtick-quoted identifiers are included, even one that ends right before
  the closing fence.
- Only one label is removed, so cleaning is not idempotent.
- "Use Selected Example", and a "Generate SQL" press with a non-empty
  question that gets a reply, append exactly one entry and leave earlier
  entries unchanged. Any other "Generate SQL" press changes nothing. After any
  sequence of presses, the history has grown by the number of presses that
  record something.
- The current query is always the SQL of the newest history entry. Each entry
  is either an example under its own name or a cleaned reply under a
  non-empty question.

Cleaning is not idempotent, because the label pattern is anchored and removes
only one label. `"SQL: SQL: x"` cleans to `"SQL: x"`, which cleans again to
`"x"`. `Clean.CleanNotIdempotent` proves this for every statement of that
shape.

An upper-case fence tag shows the tag is case-sensitive. A reply written as
three backticks, `SQL`, a newline, the statement and a closing fence loses
only the backticks. The letters `SQL` have no colon after them, so they are
not a label and stay at the head of the result (`Clean.CleanUpperTagReply`).

## Model

| member | source | states |
|---|---|---|
| Clean.StripFences | app.py:24 | The fence pass deletes characters and never adds any: its result is a subsequence of the input and no longer than it |
| Clean.StripFencesNoFence | app.py:24 | No run of three backticks is left after the fence pass. Every such run is consumed, and a deletion never joins leftover backticks into a new run |
| Clean.StripFencesHead | app.py:24 | Text that does not begin with two backticks still does not after the fence pass |
| Clean.StripFencesPlain | app.py:24 | A prefix without backticks passes through unchanged, and the scan goes on after it |
| Clean.StripFencesSqlTag | app.py:24 | Where both alternatives match, the tagged marker wins and goes as a whole |
| Clean.StripFencesBare | app.py:24 | Three backticks not followed by `sql` are removed and nothing else is |
| Clean.StripFencesUpperTag | app.py:24 | The tag match is case-sensitive: for an upper-case `SQL` tag only the backticks are removed and the letters stay |
| Clean.StripFencesLongRuns | app.py:24 | A whole run of n backticks leaves n % 3 of them, because the matches do not overlap: one marker goes per three, from the left. When n is a multiple of three, the run must not be followed by `sql`, since its last marker would then take the tag as well |
| Clean.StripFencesOfPlain | app.py:24 | Text with no run of three backticks passes through the fence pass unchanged, single and double backticks included |
| Clean.StripFencesCloseFence | app.py:24 | A closing fence after text with no run of three backticks is removed and the text stays whole. One or two backticks at the text's end that run into the fence are kept |
| Clean.NoFenceJoin | app.py:24 | Backtick-free text on either side of a text with no run of three backticks creates no new run |
| Clean.StripFencesCons | app.py:24 | A character other than a backtick is kept, and the scan goes on from the next one |
| Clean.ScanFences | app.py:24 | The loop scan computes the same text as the recursive definition, with no run of three backticks, as a subsequence of the input |
| Clean.LeadingSpaces | app.py:24 | The count of leading characters covers only whitespace, and the character after them is not whitespace |
| Clean.TextEnd | app.py:24 | Everything after the returned position is whitespace, and the character before it is not |
| Clean.StripEnd | app.py:24 | The place where `strip()` stops keeping characters lies between the leading whitespace and the end of the text. Only whitespace follows it, and the character before it is not whitespace unless nothing is kept |
| Clean.Strip | app.py:24 | `strip()` returns a trimmed slice of its input, and the parts it cuts off on both sides are whitespace |
| Clean.StripPadded | app.py:24 | Stripping a trimmed text padded with whitespace on both sides gives back exactly the text |
| Clean.StripLabel | app.py:25 | The label pass returns a suffix of its input. Without a leading label the input is unchanged. With one, the label and all the whitespace after it go, and nothing more |
| Clean.StripLabelOnce | app.py:25 | `SQL:` followed by any whitespace is removed from the front of a text, and the text after it is kept whole |
| Clean.StripLabelTrimmed | app.py:25 | Removing the label from trimmed text leaves it trimmed |
| Clean.CleanSql | app.py:23-26 | `clean_sql_query` returns text with no run of three backticks and no surrounding whitespace, which is a subsequence of the reply |
| Clean.CleanSqlNoFence | app.py:24-25 | No run of three backticks survives the whole cleaning |
| Clean.CleanSqlTrimmed | app.py:24-25 | The cleaned text is trimmed at both ends |
| Clean.CleanSqlSubsequence | app.py:24-25 | The cleaned text keeps the reply's surviving characters in order and inserts nothing |
| Clean.UpperTagFencePass | app.py:24 | For a reply fenced with an upper-case tag, the fence pass removes only the two runs of backticks |
| Clean.CleanFencedReply | app.py:24-25 | A reply of the form: fence with `sql` tag, whitespace, statement, whitespace, closing fence. It cleans to exactly the statement, for any trimmed statement with no run of three backticks that does not itself start with a label, the empty statement included |
| Clean.CleanQuotedTail | app.py:24-25 | A backtick-quoted identifier right before the closing fence cleans to the identifier with both its backticks, although its last backtick runs into the fence |
| Clean.CleanLabelledReply | app.py:24-25 | A reply of the form: whitespace, `SQL:`, whitespace, statement, whitespace. It cleans to exactly the statement, for any trimmed statement with no run of three backticks, the empty statement included |
| Clean.CleanLabelled | app.py:25 | `SQL: ` followed by a statement, as the prompt's worked examples write it, cleans to the statement, for any trimmed statement with no run of three backticks, the empty statement included |
| Clean.AlbumsQueryShape | app.py:258 | The statement of the prompt's first worked example has no backtick, so no run of three. It is trimmed and does not start with a label |
| Clean.CleanAlbumsFenced | app.py:23-26 | The first worked example's statement, returned in an `sql` fence, cleans to exactly that statement |
| Clean.CleanAlbumsLabelled | app.py:23-26 | The same statement with the `SQL: ` label cleans to exactly that statement |
| Clean.CleanUpperTagReply | app.py:24-25 | A reply fenced with an upper-case `SQL` tag cleans to `SQL`, a newline and the statement, so the tag's letters remain. This holds for any non-empty trimmed statement with no run of three backticks |
| Clean.CleanNotIdempotent | app.py:25 | Only one label is removed. `SQL: SQL: ` followed by a statement cleans to `SQL: ` and the statement, and cleaning again changes it |
| Session.UseExample | app.py:437-439 | The example's SQL becomes the current query. Exactly one entry, the example's name and its SQL, is appended. Earlier entries are untouched |
| Session.Generate | app.py:448-456 | With a non-empty question and a reply: the cleaned reply becomes the current query, exactly one entry (the question and the cleaned reply) is appended, and earlier entries are untouched. With a non-empty question whose model call raises: the session is unchanged and the error is shown. With an empty question: the session is unchanged and the warning is shown |
| Session.HistoryView | app.py:483-485 | The displayed history has one item per entry, numbered from 1 in order, showing the entry's question and SQL |
| Session.HistoryViewAppend | app.py:483-485 | Appending an entry appends one item to the display, and the earlier items keep their numbers and contents |
| Session.Apply | app.py:437-456 | One press in one script run. A press that records appends exactly one entry and keeps the earlier ones. A press that does not record (an empty question, a failed model call) leaves the session as it was |
| Session.Run | app.py:437-456 | After any sequence of presses, the old history is a prefix of the new one. Its length grew by exactly the number of example picks and answered non-empty questions |
| Session.InitialValid | app.py:445-446 | A fresh session, with an empty history and no current query, satisfies the session invariant |
| Session.ApplyValid | app.py:437-454 | Each button keeps the invariant. The current query is the newest entry's SQL. Every entry is an example under its own name or a cleaned reply under a non-empty question |
| Session.RunValid | app.py:437-454 | Any sequence of presses keeps the session invariant |

## Left out

- `get_gemini_response` (app.py:17-20) calls a remote model over the network with a credential, and its output is not deterministic. The model's reply is a parameter of `Session.Generate` instead. A call that raises is the parameter's `None` case. Why the call failed is not modelled.
- `execute_sql_query`, `get_table_names`, `get_table_schema` and `get_table_data` (app.py:29-69) are SQLite and pandas I/O. The 100-row bound of the table preview is SQLite's `LIMIT`, not logic in this code.
- The "Execute SQL" button, the editable text area, the results table and the CSV download (app.py:459-479) are rendering. The text area has no key, so edits never write back to the session's current query, and the session model is unaffected.
- The prompt string (app.py:72-267) is a constant with no logic. Only the statement of its first worked example is used, in `Clean.AlbumsQuery`.
- The database-info page, the explorer page, CSS and the graphviz diagram (app.py:270-419) are static UI.
- Session creation is not modelled as a step. Line 439 appends to `history` earlier in the script than lines 445-446, which create it. The model assumes `history` already exists when a button is pressed, and starts from `Session.Initial`, which has an empty history. This excludes one case. Streamlit stops a script run at its next element call when a widget is used during the run. If the first run of the chatbot page is stopped after the sidebar button is drawn (line 437) but before line 445, a press of "Use Selected Example" in the next run reaches line 439 with no `history`, and the app raises an error there.
- Session.UseExample: requires the name to be a key of the example map. In the app the select box offers only those keys, so the lookup cannot fail.
- Python strings may hold lone surrogate code points. Dafny's `char` is a Unicode scalar value, so the model cannot represent them.

=== FILE: clean.dfy ===
/** The sanitiser applied to the language model's reply before it is shown as
    SQL: a fence pass (`re.sub(r'```sql|```', '', query)`), a whitespace strip,
    and the removal of one leading case-insensitive `SQL:` label together with
    the whitespace after it. */
module Clean {
  import opened Text

  const Tick: char := '`'
  /** The untagged fence marker, the second alternative of the pattern. */
  const Fence: string := "```"
  /** The `sql`-tagged fence marker, the first alternative of the pattern. */
  const SqlFence: string := "```sql"

  /** The bare marker, three backticks, matches at the start of `s`. */
  predicate AtFence(s: string) {
    |s| >= 3 && s[0] == Tick && s[1] == Tick && s[2] == Tick
  }

  /** The tagged marker, three backticks and `sql`, matches at the start of `s`;
      the tag is case-sensitive. */
  predicate AtSqlFence(s: string) {
    |s| >= 6 && AtFence(s) && s[3] == 's' && s[4] == 'q' && s[5] == 'l'
  }

  /** Three backticks in a row begin at position `i` of `s`. */
  predicate TripleAt(s: string, i: nat) {
    i < |s| && AtFence(s[i..])
  }

  predicate HasFence(s: string) {
    exists i: nat :: i < |s| && TripleAt(s, i)
  }

  predicate StartsWithTwoTicks(s: string) {
    |s| >= 2 && s[0] == Tick && s[1] == Tick
  }

  // ---------------------------------------------------------------------------
  // Fence pass
  // ---------------------------------------------------------------------------

  /** The regular-expression substitution as a left-to-right scan: at each
      position the `sql`-tagged marker is tried first, then the bare marker; a
      match is deleted and the scan resumes after it, otherwise the character
      is kept and the scan moves on by one. */
  function StripFences(s: string): (r: string)
    ensures |r| <= |s|
    ensures IsSubsequence(r, s)
    decreases |s|
  {
    if |s| == 0 then
      []
    else if AtSqlFence(s) then
      var r := StripFences(s[|SqlFence|..]);
      SubsequenceDropPrefix(r, s, |SqlFence|);
      r
    else if AtFence(s) then
      var r := StripFences(s[|Fence|..]);
      SubsequenceDropPrefix(r, s, |Fence|);
      r
    else
      var rest := StripFences(s[1..]);
      var r := [s[0]] + rest;
      assert r[1..] == rest;
      r
  }

  /** If a string does not begin with two backticks, neither does what the
      fence pass makes of it: its first two characters are kept as they are. */
  lemma StripFencesHead(t: string)
    requires !StartsWithTwoTicks(t)
    ensures !StartsWithTwoTicks(StripFences(t))
  {
  }

  /** No run of three backticks survives the fence pass: every such run is
      consumed, and deleting a marker never joins leftover backticks into a
      new run. */
  lemma {:induction false} StripFencesNoFence(s: string)
    ensures !HasFence(StripFences(s))
    decreases |s|
  {
    if |s| == 0 {
    } else if AtSqlFence(s) {
      StripFencesNoFence(s[|SqlFence|..]);
    } else if AtFence(s) {
      StripFencesNoFence(s[|Fence|..]);
    } else {
      var rest := StripFences(s[1..]);
      var r := StripFences(s);
      assert r == [s[0]] + rest;
      StripFencesNoFence(s[1..]);
      if s[0] == Tick {
        StripFencesHead(s[1..]);
      }
      forall i: nat | i < |r| && TripleAt(r, i)
        ensures false
      {
        if i > 0 {
          assert r[i..] == rest[i - 1..];
          assert TripleAt(rest, i - 1);
        }
      }
    }
  }

  /** A character other than a backtick is kept, and the scan moves on. */
  lemma StripFencesCons(c: char, t: string)
    requires c != Tick
    ensures StripFences([c] + t) == [c] + StripFences(t)
  {
  }

  /** A prefix without backticks passes through the fence pass unchanged. */
  lemma {:induction false} StripFencesPlain(u: string, v: string)
    requires Tick !in u
    ensures StripFences(u + v) == u + StripFences(v)
    decreases |u|
  {
    if |u| == 0 {
      assert u + v == v;
    } else {
      var c, t := u[0], u[1..];
      assert Tick !in t && c != Tick by {
        assert u == [c] + t;
      }
      calc {
        StripFences(u + v);
        { assert u + v == [c] + (t + v); }
        StripFences([c] + (t + v));
        { StripFencesCons(c, t + v); }
        [c] + StripFences(t + v);
        { StripFencesPlain(t, v); }
        [c] + (t + StripFences(v));
        { assert u == [c] + t; }
        u + StripFences(v);
      }
    }
  }

  /** Text with no run of three backticks is left as it is by the fence pass,
      whatever single or double backticks it holds. */
  lemma {:induction false} StripFencesOfPlain(u: string)
    requires !HasFence(u)
    ensures StripFences(u) == u
    decreases |u|
  {
    if |u| > 0 {
      assert !AtFence(u) by {
        assert !TripleAt(u, 0);
        assert u[0..] == u;
      }
      NoFenceInSlice(u, 1, |u|, u[1..]);
      StripFencesOfPlain(u[1..]);
      assert [u[0]] + u[1..] == u;
    }
  }

  /** A closing fence after text with no run of three backticks goes, and the
      text stays. When the text ends in one or two backticks they join the
      fence into a longer run; the match starts at the run's first backtick,
      and the leftover backticks at its end are the text's own. */
  lemma {:induction false} StripFencesCloseFence(x: string)
    requires !HasFence(x)
    ensures StripFences(x + Fence) == x
    decreases |x|
  {
    var w := x + Fence;
    if |x| == 0 {
      assert w == Fence + [];
      StripFencesBare([]);
    } else if AtFence(w) {
      assert |x| <= 2 by {
        if |x| >= 3 {
          assert x[0..] == x;
          assert TripleAt(x, 0);
        }
      }
      assert !AtSqlFence(w) by {
        assert w[3] == Fence[3 - |x|];
      }
      assert w[3..] == x by {
        forall k | 0 <= k < |x|
          ensures w[3..][k] == x[k]
        {
          assert w[3..][k] == Fence[3 + k - |x|];
          assert x[k] == w[k];
        }
      }
      StripFencesOfPlain(x);
    } else {
      assert w[1..] == x[1..] + Fence;
      NoFenceInSlice(x, 1, |x|, x[1..]);
      StripFencesCloseFence(x[1..]);
      assert [x[0]] + x[1..] == x;
    }
  }

  /** The tagged marker is removed as a whole. */
  lemma StripFencesSqlTag(t: string)
    ensures StripFences(SqlFence + t) == StripFences(t)
  {
  }

  /** The bare marker is removed as a whole. */
  lemma StripFencesBare(t: string)
    requires !(|t| >= 3 && t[0] == 's' && t[1] == 'q' && t[2] == 'l')
    ensures StripFences(Fence + t) == StripFences(t)
  {
    var w := Fence + t;
    assert AtFence(w) && !AtSqlFence(w);
    assert w[|Fence|..] == t;
    StripFencesDropFence(w);
  }

  /** Where only the bare marker matches, the scan resumes after it. */
  lemma StripFencesDropFence(w: string)
    requires AtFence(w) && !AtSqlFence(w)
    ensures StripFences(w) == StripFences(w[|Fence|..])
  {
  }

  /** The tag match is case-sensitive: an upper-case tag loses only its
      backticks, and its letters stay in the text. */
  lemma StripFencesUpperTag(t: string)
    ensures StripFences(Fence + "SQL" + t) == "SQL" + StripFences(t)
  {
    assert Fence + "SQL" + t == Fence + ("SQL" + t);
    StripFencesBare("SQL" + t);
    StripFencesPlain("SQL", t);
  }

  /** A run of `n` backticks. */
  function Ticks(n: nat): (r: string)
    ensures |r| == n
  {
    if n == 0 then [] else [Tick] + Ticks(n - 1)
  }

  /** A run of three or more backticks begins with a bare marker. */
  lemma TicksFence(n: nat)
    requires n >= 3
    ensures Ticks(n) == Fence + Ticks(n - 3)
  {
    assert Ticks(n - 2) == [Tick] + Ticks(n - 3);
    assert Ticks(n) == [Tick] + ([Tick] + Ticks(n - 2));
  }

  /** A whole run of backticks loses one marker per three, left to right, so
      `n % 3` backticks remain. The run must be maximal (no backtick after it)
      and, when its length is a non-zero multiple of three, not followed by `sql`,
      which its last marker would otherwise take with it. */
  lemma {:induction false} StripFencesLongRuns(n: nat, t: string)
    requires !(|t| > 0 && t[0] == Tick)
    requires n == 0 || n % 3 != 0 || !(|t| >= 3 && t[0] == 's' && t[1] == 'q' && t[2] == 'l')
    ensures StripFences(Ticks(n) + t) == Ticks(n % 3) + StripFences(t)
    decreases n
  {
    if n >= 3 {
      ModThreeStep(n);
      StripFencesRunHead(n, t);
      StripFencesLongRuns(n - 3, t);
    } else if n > 0 {
      ModThreeSmall(n);
      StripFencesShortRun(n, t);
    } else {
      assert Ticks(n) + t == t;
    }
  }

  // The two remainder facts below stand alone because the solver settles
  // them at once in an empty context, but slowly inside the run lemma above.
  lemma ModThreeStep(n: nat)
    requires n >= 3
    ensures (n - 3) % 3 == n % 3
  {
  }

  lemma ModThreeSmall(n: nat)
    requires n < 3
    ensures n % 3 == n
  {
  }

  /** The first three backticks of a longer run, or of a run of three not
      followed by `sql`, go as a bare marker. */
  lemma StripFencesRunHead(n: nat, t: string)
    requires n >= 3
    requires n > 3 || !(|t| >= 3 && t[0] == 's' && t[1] == 'q' && t[2] == 'l')
    ensures StripFences(Ticks(n) + t) == StripFences(Ticks(n - 3) + t)
  {
    var u := Ticks(n - 3) + t;
    TicksFence(n);
    assert n > 3 ==> u[0] == Tick;
    assert Ticks(n) + t == Fence + u;
    StripFencesBare(u);
  }

  /** One or two backticks with no third after them are kept. */
  lemma StripFencesShortRun(n: nat, t: string)
    requires 0 < n < 3 && !(|t| > 0 && t[0] == Tick)
    ensures StripFences(Ticks(n) + t) == Ticks(n) + StripFences(t)
  {
    if n == 1 {
      assert Ticks(1) == [Tick];
      StripFencesLoneTick(t);
    } else {
      assert Ticks(2) == [Tick] + [Tick];
      StripFencesTwoTicks(t);
      assert Ticks(2) + t == [Tick] + ([Tick] + t);
      assert Ticks(2) + StripFences(t) == [Tick] + ([Tick] + StripFences(t));
    }
  }

  lemma StripFencesTwoTicks(t: string)
    requires !(|t| > 0 && t[0] == Tick)
    ensures StripFences([Tick] + ([Tick] + t)) == [Tick] + ([Tick] + StripFences(t))
  {
    StripFencesLoneTick([Tick] + t);
    StripFencesLoneTick(t);
  }

  /** A backtick not followed by two more is kept. */
  lemma StripFencesLoneTick(u: string)
    requires !StartsWithTwoTicks(u)
    ensures StripFences([Tick] + u) == [Tick] + StripFences(u)
  {
    assert ([Tick] + u)[1..] == u;
  }

  /** One step of the scan at position `i`. The loop in `ScanFences` works on
      indices, and this states the three branches on the suffix at `i` once,
      so the loop body needs no unfolding of its own. */
  lemma StripFencesAt(s: string, i: nat)
    requires i < |s|
    ensures AtSqlFence(s[i..]) ==>
              i + |SqlFence| <= |s| && StripFences(s[i..]) == StripFences(s[i + |SqlFence|..])
    ensures !AtSqlFence(s[i..]) && AtFence(s[i..]) ==>
              i + |Fence| <= |s| && StripFences(s[i..]) == StripFences(s[i + |Fence|..])
    ensures !AtSqlFence(s[i..]) && !AtFence(s[i..]) ==>
              StripFences(s[i..]) == [s[i]] + StripFences(s[i + 1..])
  {
  }

  /** An iterative rendering of the same scan, in the shape of the matcher
      loop behind `re.sub`. */
  method ScanFences(s: string) returns (r: string)
    ensures r == StripFences(s)
    ensures !HasFence(r)
    ensures IsSubsequence(r, s)
  {
    r := [];
    var i := 0;
    while i < |s|
      invariant 0 <= i <= |s|
      invariant r + StripFences(s[i..]) == StripFences(s)
    {
      StripFencesAt(s, i);
      if AtSqlFence(s[i..]) {
        i := i + |SqlFence|;
      } else if AtFence(s[i..]) {
        i := i + |Fence|;
      } else {
        assert (r + [s[i]]) + StripFences(s[i + 1..]) == r + ([s[i]] + StripFences(s[i + 1..]));
        r := r + [s[i]];
        i := i + 1;
      }
    }
    assert r == StripFences(s) by {
      assert s[i..] == [];
      assert r + [] == r;
    }
    StripFencesNoFence(s);
  }

  // ---------------------------------------------------------------------------
  // Whitespace strip
  // ---------------------------------------------------------------------------

  /** The length of the whitespace run that `s` starts with. */
  function LeadingSpaces(s: string): (n: nat)
    ensures n <= |s|
    ensures AllSpace(s[..n])
    ensures NoLeadingSpace(s[n..])
    decreases |s|
  {
    if |s| > 0 && IsSpace(s[0]) then
      var n := 1 + LeadingSpaces(s[1..]);
      assert s[..n] == [s[0]] + s[1..][..n - 1];
      assert s[n..] == s[1..][n - 1..];
      n
    else
      0
  }

  /** Where the text of `s` ends: everything from there on is whitespace. */
  function TextEnd(s: string): (n: nat)
    ensures n <= |s|
    ensures AllSpace(s[n..])
    ensures NoTrailingSpace(s[..n])
    decreases |s|
  {
    if |s| > 0 && IsSpace(s[|s| - 1]) then
      var n := TextEnd(s[..|s| - 1]);
      assert s[n..] == s[..|s| - 1][n..] + [s[|s| - 1]];
      assert s[..n] == s[..|s| - 1][..n];
      n
    else
      |s|
  }

  /** Where `str.strip()` stops keeping characters: the end of the text that
      follows the leading whitespace. */
  function StripEnd(s: string): (j: nat)
    ensures LeadingSpaces(s) <= j <= |s|
    ensures AllSpace(s[j..])
    ensures j == LeadingSpaces(s) || !IsSpace(s[j - 1])
  {
    var i := LeadingSpaces(s);
    var n := TextEnd(s[i..]);
    assert s[i + n..] == s[i..][n..];
    assert n > 0 ==> s[i + n - 1] == s[i..][..n][n - 1];
    i + n
  }

  /** `str.strip()`: the result is the trimmed slice of `s` between the end
      of its leading whitespace and the start of its trailing whitespace, and
      what it cuts off on either side is whitespace. */
  function Strip(s: string): (r: string)
    ensures IsTrimmed(r)
    ensures r == s[LeadingSpaces(s)..StripEnd(s)]
    ensures AllSpace(s[..LeadingSpaces(s)]) && AllSpace(s[StripEnd(s)..])
  {
    var i := LeadingSpaces(s);
    var a := s[i..];
    var n := TextEnd(a);
    var r := a[..n];
    assert NoLeadingSpace(r) by {
      if |r| > 0 {
        assert r[0] == a[0];
      }
    }
    r
  }

  lemma {:induction false} LeadingSpacesPadded(p: string, x: string)
    requires AllSpace(p) && NoLeadingSpace(x)
    ensures LeadingSpaces(p + x) == |p|
    decreases |p|
  {
    if |p| == 0 {
      assert p + x == x;
    } else {
      assert (p + x)[1..] == p[1..] + x;
      LeadingSpacesPadded(p[1..], x);
    }
  }

  lemma {:induction false} TextEndPadded(x: string, q: string)
    requires AllSpace(q) && NoTrailingSpace(x)
    ensures TextEnd(x + q) == |x|
    decreases |q|
  {
    if |q| == 0 {
      assert x + q == x;
    } else {
      var w := x + q;
      assert w[|w| - 1] == q[|q| - 1];
      assert w[..|w| - 1] == x + q[..|q| - 1];
      TextEndPadded(x, q[..|q| - 1]);
    }
  }

  /** Stripping removes exactly the surrounding whitespace of a padded text. */
  lemma StripPadded(p: string, x: string, q: string)
    requires AllSpace(p) && AllSpace(q) && IsTrimmed(x) && |x| > 0
    ensures Strip(p + x + q) == x
  {
    var s := p + x + q;
    assert s == p + (x + q);
    LeadingSpacesPadded(p, x + q);
    assert s[|p|..] == x + q;
    TextEndPadded(x, q);
    assert (x + q)[..|x|] == x;
  }
  /** Text that is all whitespace strips to nothing. */
  lemma StripAllSpace(s: string)
    requires AllSpace(s)
    ensures Strip(s) == []
  {
  }


  // ---------------------------------------------------------------------------
  // Label pass
  // ---------------------------------------------------------------------------

  /** Characters the pattern letters match under `re.IGNORECASE`. Python's
      case-insensitive matching also lets `S` match U+017F, LATIN SMALL
      LETTER LONG S. */
  predicate MatchesS(c: char) { c == 'S' || c == 's' || c == '\U{17F}' }
  predicate MatchesQ(c: char) { c == 'Q' || c == 'q' }
  predicate MatchesL(c: char) { c == 'L' || c == 'l' }

  /** `^SQL:` matches at the start of `t`. */
  predicate StartsWithLabel(t: string) {
    |t| >= 4 && MatchesS(t[0]) && MatchesQ(t[1]) && MatchesL(t[2]) && t[3] == ':'
  }

  /** `re.sub(r'^SQL:\s*', '', t, flags=re.IGNORECASE)`. The anchor allows a
      match only at position 0, so at most one label goes, and the greedy `\s*`
      takes all whitespace that follows it. */
  function StripLabel(t: string): (r: string)
    ensures |r| <= |t| && r == t[|t| - |r|..]
    ensures !StartsWithLabel(t) ==> r == t
    ensures StartsWithLabel(t) ==>
              && |r| <= |t| - 4
              && AllSpace(t[4..|t| - |r|])
              && NoLeadingSpace(r)
  {
    if StartsWithLabel(t) then
      var rest := t[4..];
      var n := LeadingSpaces(rest);
      assert rest[..n] == t[4..4 + n];
      assert rest[n..] == t[4 + n..];
      rest[n..]
    else
      t
  }

  // ---------------------------------------------------------------------------
  // The whole sanitiser
  // ---------------------------------------------------------------------------

  /** `clean_sql_query`. No run of three backticks survives, the result has no
      surrounding whitespace, and it is the input with characters deleted. */
  function CleanSql(s: string): (r: string)
    ensures !HasFence(r)
    ensures IsTrimmed(r)
    ensures IsSubsequence(r, s)
  {
    CleanSqlNoFence(s);
    CleanSqlTrimmed(s);
    CleanSqlSubsequence(s);
    StripLabel(Strip(StripFences(s)))
  }

  lemma CleanSqlNoFence(s: string)
    ensures !HasFence(StripLabel(Strip(StripFences(s))))
  {
    var f := StripFences(s);
    var a, b := LabelledSlice(f);
    StripFencesNoFence(s);
    NoFenceInSlice(f, a, b, StripLabel(Strip(f)));
  }

  lemma CleanSqlTrimmed(s: string)
    ensures IsTrimmed(StripLabel(Strip(StripFences(s))))
  {
  }

  lemma CleanSqlSubsequence(s: string)
    ensures IsSubsequence(StripLabel(Strip(StripFences(s))), s)
  {
    var f := StripFences(s);
    StripLabelStripSubsequence(f);
    SubsequenceTransitive(StripLabel(Strip(f)), f, s);
  }

  /** Stripping and then removing a label only deletes characters. */
  lemma StripLabelStripSubsequence(f: string)
    ensures IsSubsequence(StripLabel(Strip(f)), f)
  {
    var a, b := LabelledSlice(f);
    SliceIsSubsequence(f, a, b, StripLabel(Strip(f)));
  }

  /** Stripping and then removing a label leaves a slice of the text. */
  lemma LabelledSlice(f: string) returns (a: nat, b: nat)
    ensures a <= b <= |f| && StripLabel(Strip(f)) == f[a..b]
  {
    var t := Strip(f);
    var r := StripLabel(t);
    b := StripEnd(f);
    a := b - |r|;
    SuffixOfSlice(f, LeadingSpaces(f), b, t, r, a);
  }

  /** The label pass keeps stripped text trimmed. */
  lemma StripLabelTrimmed(t: string)
    requires IsTrimmed(t)
    ensures IsTrimmed(StripLabel(t))
  {
  }

  /** A slice of a text without a run of three backticks has none either. */
  lemma NoFenceInSlice(f: string, a: nat, b: nat, g: string)
    requires a <= b <= |f| && g == f[a..b] && !HasFence(f)
    ensures !HasFence(g)
  {
    forall j: nat | j < |g| && TripleAt(g, j)
      ensures false
    {
      assert g[j..][0] == f[a + j] && g[j..][1] == f[a + j + 1] && g[j..][2] == f[a + j + 2];
      assert TripleAt(f, a + j);
    }
  }

  /** Text with no backtick has no run of three. */
  lemma NoTickNoFence(u: string)
    requires Tick !in u
    ensures !HasFence(u)
  {
  }

  /** Backtick-free text on either side of a text with no run of three
      backticks makes no new run. */
  lemma NoFenceJoin(a: string, b: string, c: string)
    requires Tick !in a && !HasFence(b) && Tick !in c
    ensures !HasFence(a + b + c)
  {
    forall i: nat | i < |a + b + c| && TripleAt(a + b + c, i)
      ensures false
    {
      TripleInJoin(a, b, c, i);
    }
  }

  /** A run of three backticks in text framed by backtick-free parts lies
      wholly inside the middle part. */
  lemma TripleInJoin(a: string, b: string, c: string, i: nat)
    requires Tick !in a && Tick !in c
    requires i < |a + b + c| && TripleAt(a + b + c, i)
    ensures |a| <= i && TripleAt(b, i - |a|)
  {
    var s := a + b + c;
    var t := s[i..];
    assert t[0] == s[i] && t[1] == s[i + 1] && t[2] == s[i + 2];
    assert |a| <= i;
    assert i + 2 < |a| + |b|;
    var j := i - |a|;
    assert s[i] == b[j] && s[i + 1] == b[j + 1] && s[i + 2] == b[j + 2];
    assert b[j..][0] == b[j] && b[j..][1] == b[j + 1] && b[j..][2] == b[j + 2];
  }

  /** A fenced reply, with any whitespace around the statement inside the
      fence, cleans to exactly the statement. The statement may hold single
      or double backticks (quoted identifiers), even at its very end where
      they run into the closing fence. */
  lemma CleanFencedReply(p: string, body: string, q: string)
    requires AllSpace(p) && AllSpace(q)
    requires !HasFence(body) && IsTrimmed(body) && !StartsWithLabel(body)
    ensures CleanSql(SqlFence + p + body + q + Fence) == body
  {
    var inner := p + body + q;
    assert Tick !in p && Tick !in q;
    NoFenceJoin(p, body, q);
    calc {
      StripFences(SqlFence + p + body + q + Fence);
      { assert SqlFence + p + body + q + Fence == SqlFence + (inner + Fence); }
      StripFences(SqlFence + (inner + Fence));
      { StripFencesSqlTag(inner + Fence); }
      StripFences(inner + Fence);
      { StripFencesCloseFence(inner); }
      inner;
    }
    if |body| == 0 {
      assert inner == p + q;
      StripAllSpace(inner);
    } else {
      StripPadded(p, body, q);
    }
  }

  /** A quoted identifier right before the closing fence: its last backtick
      joins the fence into a run of four, and cleaning still gives back the
      identifier with both its backticks. */
  lemma CleanQuotedTail(name: string)
    requires Tick !in name
    ensures CleanSql(SqlFence + "\n" + ([Tick] + name + [Tick]) + Fence) == [Tick] + name + [Tick]
  {
    var b := [Tick] + name + [Tick];
    QuotedShape(name);
    var open := SqlFence + "\n" + b;
    calc {
      CleanSql(open + Fence);
      { assert open + [] == open; }
      CleanSql(open + [] + Fence);
      { CleanFencedReply("\n", b, []); }
      b;
    }
  }

  /** A quoted identifier has no run of three backticks, is trimmed and is
      not a label. */
  lemma QuotedShape(name: string)
    requires Tick !in name
    ensures var b := [Tick] + name + [Tick];
            !HasFence(b) && IsTrimmed(b) && |b| > 0 && !StartsWithLabel(b)
  {
  }

  /** The label pass removes one label and all whitespace right after it. */
  lemma StripLabelOnce(w: string, body: string)
    requires AllSpace(w) && NoLeadingSpace(body)
    ensures StripLabel("SQL:" + w + body) == body
  {
    var l := "SQL:" + w + body;
    assert StartsWithLabel(l);
    assert l[4..] == w + body;
    LeadingSpacesPadded(w, body);
    assert (w + body)[|w|..] == body;
  }

  /** A labelled reply, in the form of the prompt's worked examples and with
      any whitespace around it, cleans to exactly the statement, backticks
      in the statement included. */
  lemma CleanLabelledReply(p: string, w: string, body: string, q: string)
    requires AllSpace(p) && AllSpace(w) && AllSpace(q)
    requires !HasFence(body) && IsTrimmed(body)
    ensures CleanSql(p + "SQL:" + w + body + q) == body
  {
    if |body| == 0 {
      assert p + "SQL:" + w + body + q == p + "SQL:" + (w + q);
      CleanBareLabel(p, w + q);
    } else {
      var labelled := "SQL:" + w + body;
      var s := p + labelled + q;
      assert Tick !in p + "SQL:" + w && Tick !in q;
      NoFenceJoin(p + "SQL:" + w, body, q);
      assert p + "SQL:" + w + body + q == s;
      StripFencesOfPlain(s);
      assert IsTrimmed(labelled) by {
        assert labelled[0] == 'S';
        assert labelled[|labelled| - 1] == body[|body| - 1];
      }
      StripPadded(p, labelled, q);
      StripLabelOnce(w, body);
    }
  }

  /** A label with nothing after it but whitespace cleans to nothing. */
  lemma CleanBareLabel(p: string, q: string)
    requires AllSpace(p) && AllSpace(q)
    ensures CleanSql(p + "SQL:" + q) == []
  {
    var s := p + "SQL:" + q;
    assert Tick !in p + "SQL:" && Tick !in q;
    NoFenceJoin(p + "SQL:", [], q);
    assert p + "SQL:" + [] + q == s;
    StripFencesOfPlain(s);
    StripPadded(p, "SQL:", q);
    StripLabelOnce([], []);
    assert "SQL:" + [] + [] == "SQL:";
  }

  /** The statement of the prompt's first worked example, in four pieces. */
  const AlbumsSelect: string := "SELECT Album.Title, "
  const AlbumsFrom: string := "Artist.Name FROM Album JOIN "
  const AlbumsOn: string := "Artist ON Album.ArtistId = "
  const AlbumsKey: string := "Artist.ArtistId;"
  const AlbumsQuery: string := AlbumsSelect + AlbumsFrom + AlbumsOn + AlbumsKey

  lemma AlbumsQueryShape()
    ensures Tick !in AlbumsQuery && IsTrimmed(AlbumsQuery) && |AlbumsQuery| > 0
    ensures !HasFence(AlbumsQuery) && !StartsWithLabel(AlbumsQuery)
  {
    assert Tick !in AlbumsSelect && Tick !in AlbumsFrom;
    assert Tick !in AlbumsOn && Tick !in AlbumsKey;
    assert AlbumsQuery[..|AlbumsSelect|] == AlbumsSelect;
    assert AlbumsQuery[|AlbumsQuery| - |AlbumsKey|..] == AlbumsKey;
    assert AlbumsSelect[0] == 'S' && AlbumsSelect[3] == 'E';
    assert AlbumsKey[|AlbumsKey| - 1] == ';';
    NoTickNoFence(AlbumsQuery);
  }

  /** The model answering with that statement in a fence. */
  lemma CleanAlbumsFenced()
    ensures CleanSql(SqlFence + "\n" + AlbumsQuery + "\n" + Fence) == AlbumsQuery
  {
    AlbumsQueryShape();
    CleanFencedReply("\n", AlbumsQuery, "\n");
  }

  /** The model answering with that statement in the labelled form. */
  lemma CleanAlbumsLabelled()
    ensures CleanSql("SQL: " + AlbumsQuery) == AlbumsQuery
  {
    AlbumsQueryShape();
    CleanLabelled(AlbumsQuery);
  }

  /** An upper-case fence tag leaves its letters behind, and without a colon
      they are not a label, so they stay at the head of the result. */
  lemma CleanUpperTagReply(body: string)
    requires !HasFence(body) && IsTrimmed(body) && |body| > 0
    ensures CleanSql(Fence + "SQL\n" + body + "\n" + Fence) == "SQL\n" + body
  {
    var x := "SQL\n" + body;
    calc {
      CleanSql(Fence + "SQL\n" + body + "\n" + Fence);
      StripLabel(Strip(StripFences(Fence + "SQL\n" + body + "\n" + Fence)));
      { UpperTagFencePass(body); }
      StripLabel(Strip(x + "\n"));
      { UpperTagStrip(body); }
      StripLabel(x);
      { assert !StartsWithLabel(x) by { assert x[3] == '\n'; } }
      x;
    }
  }

  /** The fence pass over an upper-case-tagged reply removes only the two
      runs of backticks. */
  lemma UpperTagFencePass(body: string)
    requires !HasFence(body)
    ensures StripFences(Fence + "SQL\n" + body + "\n" + Fence) == "SQL\n" + body + "\n"
  {
    var inner := "\n" + body + "\n";
    NoFenceJoin("\n", body, "\n");
    calc {
      StripFences(Fence + "SQL\n" + body + "\n" + Fence);
      { assert Fence + "SQL\n" + body + "\n" + Fence == Fence + "SQL" + (inner + Fence); }
      StripFences(Fence + "SQL" + (inner + Fence));
      { StripFencesUpperTag(inner + Fence); }
      "SQL" + StripFences(inner + Fence);
      { StripFencesCloseFence(inner); }
      "SQL" + inner;
      { assert "SQL" + inner == "SQL\n" + body + "\n"; }
      "SQL\n" + body + "\n";
    }
  }

  lemma UpperTagStrip(body: string)
    requires IsTrimmed(body) && |body| > 0
    ensures Strip("SQL\n" + body + "\n") == "SQL\n" + body
  {
    var x := "SQL\n" + body;
    assert IsTrimmed(x) by {
      assert x[0] == 'S';
      assert x[|x| - 1] == body[|body| - 1];
    }
    StripPadded([], x, "\n");
    assert [] + x + "\n" == "SQL\n" + body + "\n";
  }

  /** The labelled form exactly as the prompt's worked examples write it. */
  lemma CleanLabelled(body: string)
    requires !HasFence(body) && IsTrimmed(body)
    ensures CleanSql("SQL: " + body) == body
  {
    assert [] + "SQL:" + " " + body + [] == "SQL: " + body;
    CleanLabelledReply([], " ", body, []);
  }

  /** Only one label is removed, so cleaning is not idempotent: a reply that
      repeats the label keeps the second one after the first cleaning and
      loses it on the next. */
  lemma CleanNotIdempotent(body: string)
    requires !HasFence(body) && IsTrimmed(body) && |body| > 0
    ensures CleanSql("SQL: SQL: " + body) == "SQL: " + body
    ensures CleanSql(CleanSql("SQL: SQL: " + body)) == body
    ensures CleanSql(CleanSql("SQL: SQL: " + body)) != CleanSql("SQL: SQL: " + body)
  {
    CleanDoubleLabel(body);
    CleanLabelled(body);
    assert |"SQL: " + body| != |body|;
  }

  /** The first cleaning of a doubled label removes only the outer one. */
  lemma CleanDoubleLabel(body: string)
    requires !HasFence(body) && IsTrimmed(body) && |body| > 0
    ensures CleanSql("SQL: SQL: " + body) == "SQL: " + body
  {
    var once := "SQL: " + body;
    calc {
      CleanSql("SQL: SQL: " + body);
      { assert "SQL: SQL: " + body == "SQL: " + once; }
      CleanSql("SQL: " + once);
      { LabelledIsTrimmed(body); CleanLabelled(once); }
      once;
    }
  }

  /** Putting the label in front keeps a statement free of runs of three
      backticks and trimmed. */
  lemma LabelledIsTrimmed(body: string)
    requires !HasFence(body) && IsTrimmed(body) && |body| > 0
    ensures !HasFence("SQL: " + body) && IsTrimmed("SQL: " + body)
  {
    NoFenceJoin("SQL: ", body, []);
    assert "SQL: " + body + [] == "SQL: " + body;
    var once := "SQL: " + body;
    assert once[0] == 'S';
    assert once[|once| - 1] == body[|body| - 1];
  }
}

=== FILE: session.dfy ===
/** The chatbot page's session state and the two buttons that change it:
    "Use Selected Example" and "Generate SQL". The state is a record that each
    button press maps to a new record; the language model's reply is a
    parameter standing in for the network call. */
module Session {
  import opened Text
  import opened Clean

  datatype Option<T> = None | Some(value: T)

  /** One line of the query history: the question asked (or the example's
      name) and the SQL it produced. */
  datatype Entry = Entry(title: string, sql: string)

  /** `st.session_state` for the chatbot page. `currentSql` is absent until the
      first successful button press; `history` only ever grows. */
  datatype Session = Session(currentSql: Option<string>, history: seq<Entry>)

  /** A fresh session: nothing generated yet, empty history. */
  const Initial: Session := Session(None, [])

  /** The warning shown when "Generate SQL" is pressed with an empty question. */
  const EmptyQuestionWarning: string := "Please enter a question or select an example query."

  /** The sidebar's example queries, by name. */
  const ExampleQueries: map<string, string> := map[
    "List all albums with their artists" :=
      "SELECT Album.Title, Artist.Name FROM Album JOIN Artist ON Album.ArtistId = Artist.ArtistId LIMIT 10",
    "Top 5 genres by number of tracks" :=
      "SELECT Genre.Name, COUNT(*) as TrackCount FROM Track JOIN Genre ON Track.GenreId = Genre.GenreId GROUP BY Genre.GenreId ORDER BY TrackCount DESC LIMIT 5",
    "Total sales by country" :=
      "SELECT BillingCountry, SUM(Total) as TotalSales FROM Invoice GROUP BY BillingCountry ORDER BY TotalSales DESC",
    "Customers who spent more than $40" :=
      "SELECT Customer.FirstName, Customer.LastName, SUM(Invoice.Total) as TotalSpent FROM Customer JOIN Invoice ON Customer.CustomerId = Invoice.CustomerId GROUP BY Customer.CustomerId HAVING TotalSpent > 40 ORDER BY TotalSpent DESC",
    "Tracks longer than 5 minutes" :=
      "SELECT Name, Milliseconds/60000.0 as Minutes FROM Track WHERE Milliseconds > 300000 ORDER BY Milliseconds DESC LIMIT 10"
  ]

  /** `h` is `before` with exactly `e` appended: one more entry, the earlier ones untouched. */
  predicate AppendsOne(before: seq<Entry>, h: seq<Entry>, e: Entry) {
    && |h| == |before| + 1
    && h[..|before|] == before
    && h[|before|] == e
  }

  /** "Use Selected Example": the example's SQL becomes the current query and
      is recorded under the example's name. The select box only offers names
      from the example map. */
  function UseExample(s: Session, name: string): (r: Session)
    requires name in ExampleQueries
    ensures r.currentSql == Some(ExampleQueries[name])
    ensures AppendsOne(s.history, r.history, Entry(name, ExampleQueries[name]))
  {
    var sql := ExampleQueries[name];
    var r := Session(Some(sql), s.history + [Entry(name, sql)]);
    assert r.history[..|s.history|] == s.history;
    r
  }

  /** What the page shows besides the session after a button press: the
      empty-question warning, or the error of a model call that raised. */
  datatype Notice = Warning(text: string) | CallFailed

  /** What a button press leaves behind: the new session and any notice shown. */
  datatype Step = Step(session: Session, notice: Option<Notice>)

  /** "Generate SQL" with the text-box contents `question`. A non-empty
      question is sent to the model: `reply` is its raw answer, or `None` when
      the call raises (a missing or rejected key, a network failure, a blocked
      reply), which ends the script run before anything is stored. The cleaned
      reply becomes the current query and is recorded under the question. An
      empty question changes nothing and shows a warning. */
  function Generate(s: Session, question: string, reply: Option<string>): (r: Step)
    ensures |question| > 0 && reply.Some? ==>
              && r.notice == None
              && r.session.currentSql == Some(CleanSql(reply.value))
              && AppendsOne(s.history, r.session.history, Entry(question, CleanSql(reply.value)))
    ensures |question| > 0 && reply.None? ==> r == Step(s, Some(CallFailed))
    ensures |question| == 0 ==> r == Step(s, Some(Warning(EmptyQuestionWarning)))
    ensures r.session.currentSql.Some? && r.session.currentSql != s.currentSql ==>
              !HasFence(r.session.currentSql.value) && IsTrimmed(r.session.currentSql.value)
  {
    if |question| > 0 then
      match reply
      case None => Step(s, Some(CallFailed))
      case Some(text) =>
        var sql := CleanSql(text);
        var h := s.history + [Entry(question, sql)];
        assert h[..|s.history|] == s.history;
        Step(Session(Some(sql), h), None)
    else
      Step(s, Some(Warning(EmptyQuestionWarning)))
  }

  // ---------------------------------------------------------------------------
  // History as displayed
  // ---------------------------------------------------------------------------

  /** One expander of the "Query History" list: its 1-based number, the
      question shown in its title, and the SQL inside it. */
  datatype Shown = Shown(number: nat, question: string, sql: string)

  /** The history list as rendered, oldest first and numbered from 1. */
  function HistoryView(h: seq<Entry>): (v: seq<Shown>)
    ensures |v| == |h|
    ensures forall i :: 0 <= i < |v| ==>
              v[i].number == i + 1 && v[i].question == h[i].title && v[i].sql == h[i].sql
    decreases |h|
  {
    if |h| == 0 then []
    else
      var v := HistoryView(h[..|h| - 1]);
      v + [Shown(|h|, h[|h| - 1].title, h[|h| - 1].sql)]
  }

  /** Appending to the history only appends to what is displayed: earlier
      expanders keep their numbers and contents. */
  lemma HistoryViewAppend(h: seq<Entry>, e: Entry)
    ensures HistoryView(h + [e]) == HistoryView(h) + [Shown(|h| + 1, e.title, e.sql)]
  {
  }

  // ---------------------------------------------------------------------------
  // Sequences of button presses
  // ---------------------------------------------------------------------------

  /** A button press with its inputs. */
  datatype Action =
    | PickExample(name: string)
    | Ask(question: string, reply: Option<string>)

  /** The select box only offers names from the example map. */
  predicate Offered(a: Action) {
    a.PickExample? ==> a.name in ExampleQueries
  }

  predicate AllOffered(acts: seq<Action>) {
    forall i :: 0 <= i < |acts| ==> Offered(acts[i])
  }

  /** A press that records an entry: every example pick, and every question
      that is not empty and gets an answer from the model. */
  predicate Records(a: Action) {
    a.PickExample? || (|a.question| > 0 && a.reply.Some?)
  }

  /** One button press in one run of the script. A press that records
      appends exactly one entry; any other press leaves the session as it
      was. */
  function Apply(s: Session, a: Action): (r: Session)
    requires Offered(a)
    ensures |r.history| == |s.history| + (if Records(a) then 1 else 0)
    ensures r.history[..|s.history|] == s.history
    ensures !Records(a) ==> r == s
  {
    match a
    case PickExample(name) => UseExample(s, name)
    case Ask(question, reply) => Generate(s, question, reply).session
  }

  function RecordingCount(acts: seq<Action>): nat
    decreases |acts|
  {
    if |acts| == 0 then 0
    else (if Records(acts[0]) then 1 else 0) + RecordingCount(acts[1..])
  }

  /** The session after the presses `acts`, one script run each, in order.
      The history is append-only: the old history is a prefix of the new
      one, which has grown by exactly the number of presses that record an
      entry. */
  function Run(s: Session, acts: seq<Action>): (r: Session)
    requires AllOffered(acts)
    ensures |r.history| == |s.history| + RecordingCount(acts)
    ensures r.history[..|s.history|] == s.history
    decreases |acts|
  {
    if |acts| == 0 then
      s
    else
      var next := Apply(s, acts[0]);
      var r := Run(next, acts[1..]);
      assert r.history[..|s.history|] == r.history[..|next.history|][..|s.history|];
      r
  }

  /** The current query is the SQL of the newest history entry, and absent
      while the history is empty. */
  predicate CurrentIsNewest(s: Session) {
    if |s.history| == 0 then s.currentSql == None
    else s.currentSql == Some(s.history[|s.history| - 1].sql)
  }

  /** Where a recorded entry's SQL comes from: an example under its own name,
      or a cleaned model reply under a non-empty question. */
  predicate WellFormedEntry(e: Entry) {
    || (e.title in ExampleQueries && e.sql == ExampleQueries[e.title])
    || (|e.title| > 0 && !HasFence(e.sql) && IsTrimmed(e.sql))
  }

  predicate Valid(s: Session) {
    && CurrentIsNewest(s)
    && forall i :: 0 <= i < |s.history| ==> WellFormedEntry(s.history[i])
  }

  lemma InitialValid()
    ensures Valid(Initial)
  {
  }

  /** Both buttons keep the session valid. */
  lemma ApplyValid(s: Session, a: Action)
    requires Offered(a) && Valid(s)
    ensures Valid(Apply(s, a))
  {
    var r := Apply(s, a);
    if Records(a) {
      forall i | 0 <= i < |r.history|
        ensures WellFormedEntry(r.history[i])
      {
        if i < |s.history| {
          assert r.history[i] == r.history[..|s.history|][i];
        }
      }
    }
  }

  lemma {:induction false} RunValid(s: Session, acts: seq<Action>)
    requires AllOffered(acts) && Valid(s)
    ensures Valid(Run(s, acts))
    decreases |acts|
  {
    if |acts| > 0 {
      ApplyValid(s, acts[0]);
      RunValid(Apply(s, acts[0]), acts[1..]);
    }
  }
}

=== FILE: text.dfy ===
/** Character classes and sequence relations shared by the cleaning passes. */
module Text {

  /** Whitespace as CPython classifies it: the set used both by `str.strip()`
      with no argument and by the `\s` class of a `str` regular expression. */
  predicate IsSpace(c: char) {
    || c == ' '
    || ('\t' <= c <= '\r')            // \t \n \v \f \r
    || ('\U{1C}' <= c <= '\U{1F}')    // file, group, record and unit separators
    || c == '\U{85}' || c == '\U{A0}' || c == '\U{1680}'
    || ('\U{2000}' <= c <= '\U{200A}')
    || c == '\U{2028}' || c == '\U{2029}' || c == '\U{202F}'
    || c == '\U{205F}' || c == '\U{3000}'
  }

  predicate AllSpace(s: string) {
    forall i :: 0 <= i < |s| ==> IsSpace(s[i])
  }

  predicate NoLeadingSpace(s: string) {
    |s| == 0 || !IsSpace(s[0])
  }

  predicate NoTrailingSpace(s: string) {
    |s| == 0 || !IsSpace(s[|s| - 1])
  }

  /** What `str.strip()` promises about its result. */
  predicate IsTrimmed(s: string) {
    NoLeadingSpace(s) && NoTrailingSpace(s)
  }

  /** `a` is obtained from `b` by deleting elements, keeping the order of the rest. */
  predicate IsSubsequence<T(==)>(a: seq<T>, b: seq<T>)
    decreases |b|
  {
    || |a| == 0
    || (&& |b| > 0
        && ((a[0] == b[0] && IsSubsequence(a[1..], b[1..])) || IsSubsequence(a, b[1..])))
  }

  lemma {:induction false} SubsequenceReflexive<T>(a: seq<T>)
    ensures IsSubsequence(a, a)
    decreases |a|
  {
    if |a| > 0 {
      SubsequenceReflexive(a[1..]);
    }
  }

  lemma {:induction false} SubsequenceTransitive<T>(a: seq<T>, b: seq<T>, c: seq<T>)
    requires IsSubsequence(a, b) && IsSubsequence(b, c)
    ensures IsSubsequence(a, c)
    decreases |c|
  {
    if |a| == 0 {
    } else if IsSubsequence(b, c[1..]) {
      SubsequenceTransitive(a, b, c[1..]);
    } else {
      assert b[0] == c[0] && IsSubsequence(b[1..], c[1..]);
      if a[0] == b[0] && IsSubsequence(a[1..], b[1..]) {
        SubsequenceTransitive(a[1..], b[1..], c[1..]);
      } else {
        SubsequenceTransitive(a, b[1..], c[1..]);
      }
    }
  }

  /** Deleting from the end of the larger sequence keeps what was a subsequence. */
  lemma {:induction false} SubsequenceExtendRight<T>(a: seq<T>, b: seq<T>, y: seq<T>)
    requires IsSubsequence(a, b)
    ensures IsSubsequence(a, b + y)
    decreases |b|
  {
    if |a| == 0 {
    } else {
      assert (b + y)[0] == b[0] && (b + y)[1..] == b[1..] + y;
      if a[0] == b[0] && IsSubsequence(a[1..], b[1..]) {
        SubsequenceExtendRight(a[1..], b[1..], y);
      } else {
        SubsequenceExtendRight(a, b[1..], y);
      }
    }
  }

  lemma {:induction false} SubsequenceExtendLeft<T>(a: seq<T>, x: seq<T>, b: seq<T>)
    requires IsSubsequence(a, b)
    ensures IsSubsequence(a, x + b)
    decreases |x|
  {
    if |x| == 0 {
      assert x + b == b;
    } else {
      assert (x + b)[1..] == x[1..] + b;
      SubsequenceExtendLeft(a, x[1..], b);
    }
  }

  /** Every contiguous slice is a subsequence. */
  lemma SliceIsSubsequence<T>(b: seq<T>, i: nat, j: nat, r: seq<T>)
    requires i <= j <= |b| && r == b[i..j]
    ensures IsSubsequence(r, b)
  {
    SubsequenceReflexive(b[i..j]);
    SubsequenceExtendRight(b[i..j], b[i..j], b[j..]);
    assert b[i..j] + b[j..] == b[i..];
    SubsequenceExtendLeft(b[i..j], b[..i], b[i..]);
    assert b[..i] + b[i..] == b;
  }

  /** A suffix of a slice is the slice that ends at the same place. The caller
      passes the suffix and its start as parameters, so the fact is stated on
      exactly the terms the caller holds and no slice has to be recomputed. */
  lemma SuffixOfSlice<T>(b: seq<T>, i: nat, j: nat, t: seq<T>, r: seq<T>, k: int)
    requires i <= j <= |b| && t == b[i..j]
    requires |r| <= |t| && r == t[|t| - |r|..] && k == j - |r|
    ensures 0 <= k <= j && r == b[k..j]
  {
  }

  lemma SubsequenceDropPrefix<T>(a: seq<T>, b: seq<T>, k: nat)
    requires k <= |b| && IsSubsequence(a, b[k..])
    ensures IsSubsequence(a, b)
  {
    SubsequenceExtendLeft(a, b[..k], b[k..]);
    assert b[..k] + b[k..] == b;
  }
}
